=== FILE: README.md ===
# Chat app: presence relay, chat state and controllers in Dafny

This project models the core of a small real-time chat application (an
Express + socket.io server with a React client). It covers five pieces:

- the server's presence table `userSocketMap` and its socket.io handlers
  `connection`, `sendMessage` and `disconnect` (`Presence`, presence.dfy);
- the client's chat state: the `newMessage` socket handler, `sendMessage`,
  `getUsers` and `getMessages` (`ChatClient`, chat_client.dfy);
- the message controller: sidebar users with unread counts, reading a
  conversation, marking messages seen, and sending (`MessageStore`,
  message_store.dfy);
- the `protectRoute` middleware: token extraction and the 401/400/404/next
  decision (`Auth`, auth.dfy);
- the user controller: `signup`, `login` and `updateProfile` (`Accounts`,
  accounts.dfy).

Every handler runs to completion on Node's event loop. Each one is therefore a
pure function from the state and its input to the new state plus what it
emits: socket events, HTTP replies, requests or toasts. MongoDB collections
are sequences of records in insertion order. JWT signing and verification,
bcrypt hashing and comparison, and the Cloudinary upload are function or
outcome parameters that the model does not interpret.

`JsValues` (js_values.dfy) holds the JavaScript semantics the handlers rely
on:

- `undefined`/`null` as `None`;
- truthiness of strings;
- `obj[undefined]` addressing the key "undefined";
- `String.prototype.split` with a one-character separator, proved to round-trip with `join`.

`Records` (records.dfy) holds the user and message documents and the
`findById`/`findOne({ email })` lookups. `Delivery` (delivery.dfy) connects
the client's send, the relay and the receiving client.

The model follows the code where it differs from the intended design:

- a new connection for a user silently overwrites the table entry;
- `disconnect` deletes the user's entry without checking which socket it holds, so a stale disconnect evicts a newer socket (`Presence.StaleDisconnectEvictsNewerSocket`);
- every disconnect broadcasts, even when nothing was removed;
- the handshake's `userId` is trusted without authentication.

The client's `getMessages` reads `data.message`, but the server replies with
`messages`, so a fetched conversation never reaches the client's state (see
"## Findings"). `ChatClient.GetMessages` models the code as written, and
`ChatClient.GetMessagesIntended` models the evident intent.

The safety half of the intended invariant does hold: every table entry names a
live socket that claimed that user (`Presence.RunKeepsConsistent`). Its
completeness half does not.

## Model

| member | source | states |
|---|---|---|
| `Presence.OnConnection` | server/server.js:23-30 | A truthy handshake userId is mapped to this socket, replacing any earlier socket. A falsy one leaves the table unchanged. Other entries are kept. The broadcast carries the post-update key set, even when nothing was registered. |
| `Presence.OnSendMessage` | server/server.js:33-40 | Never changes the table. Emits at most one event: `newMessage` with the unmodified payload, to exactly the socket stored under the payload's receiverId. It emits this iff that entry exists and is truthy; otherwise it emits nothing. |
| `Presence.OnDisconnect` | server/server.js:43-47 | The entry under the socket's handshake userId is gone, whatever socket it held. Every other entry is unchanged. The broadcast carries the post-deletion keys, also when the key was already absent. |
| `Presence.Deliver` | server/server.js:22-48 | A connection records the socket with its handshake userId and updates the table as `OnConnection` does. A disconnect of a known socket forgets it and updates the table as `OnDisconnect` does with that socket's userId. Both emit exactly one `getOnlineUsers` with the new table's keys. A message from a connected socket changes no state and emits what `OnSendMessage` emits. An event on an unknown socket changes nothing and emits nothing. |
| `Presence.DeliverKeepsConsistent` | server/server.js:24-46 | Each handler keeps every table entry pointing to a live socket whose handshake claimed that user. Every forwarded message goes to a live socket that claimed the receiver. |
| `Presence.RunKeepsConsistent` | server/server.js:20-48 | After any run of connections, messages and disconnects with fresh socket ids, the table still points only at live sockets of the right users. |
| `Presence.StaleDisconnectEvictsNewerSocket` | server/server.js:27-45 | Scenario: a user connects on s1 then s2, and s1 disconnects. The user is then absent from the table although s2 is live with that userId, and a message to the user from s2 is not delivered. |
| `ChatClient.Bump` | client/context/ChatContext.jsx:84-89 | The sender's unread count becomes the previous count plus one, or 1 when absent. All other counts are kept and no other key is added. |
| `ChatClient.OnNewMessage` | client/context/ChatContext.jsx:74-91 | A missing message or one without a senderId changes nothing. A message from the selected user is appended with seen = true, its mark-seen request is issued, and counts are untouched. Anything else only bumps that sender's count. |
| `ChatClient.SendMessage` | client/context/ChatContext.jsx:40-69 | With no selected user (or one without an id) there is a toast, no request and no state change. Otherwise the POST goes to the selected id. On success, `newMessage` is appended and the effects are exactly the POST followed, iff the socket is connected, by one `sendMessage` emit readdressed to the selected id. A reply with `success` false gives exactly the POST and a toast of the reply's message. A thrown error gives exactly the POST and a toast of the error reply's message, or "Failed to send message" when it has none. Neither failure changes the state. |
| `ChatClient.GetUsers` | client/context/ChatContext.jsx:15-26 | A successful reply replaces the users, and replaces the unread counts with the reply's map, or `{}` when the map is absent, with no effect. A reply with `success` false changes nothing and causes nothing. A thrown error changes nothing and causes exactly one toast of its message. |
| `ChatClient.Append` | client/context/ChatContext.jsx:53 | The spread of the previous list into a new one, with an unset list read as empty: the result is that list followed by exactly the new message. |
| `ChatClient.GetMessages` | client/context/ChatContext.jsx:28-38 | As written: a successful reply sets `messages` to the reply's `message` field (None when absent). A failed reply changes nothing. An error toasts "Failed to load messages." and keeps the state. |
| `ChatClient.GetMessagesIntended` | client/context/ChatContext.jsx:28-38 | Corrected: the same, except that a successful reply sets `messages` to the reply's `messages` field, the one the server sends. |
| `ChatClient.NewMessageTracksServerCount` | client/context/ChatContext.jsx:83-89 | Setup: the client's counts equal the server's sidebar counts over a store, and the server stores an unseen message from a listed, unselected user. Relaying that message keeps the client's counts equal to the server's counts over the extended store. |
| `ChatClient.NewMessagesTrackServerCounts` | client/context/ChatContext.jsx:74-91 | The same agreement holds over any sequence of such messages. |
| `MessageStore.CountUnseen` | server/controllers/messageController.js:17-24 | The `messages.length` of the unseen-message query. It never exceeds the number of stored messages. `CountUnseenZeroIff` and `CountUnseenSnoc` characterise it. |
| `MessageStore.CountUnseenSnoc` | server/controllers/messageController.js:17-24 | Storing one more message raises the count by one iff that message matches `{ senderId, receiverId, seen: false }`. |
| `MessageStore.CountUnseenZeroIff` | server/controllers/messageController.js:17-24 | The number of unseen messages from one user to another is zero iff no message matches `{ senderId, receiverId, seen: false }`. |
| `MessageStore.UnseenCountsAfterStore` | server/controllers/messageController.js:14-26 | Storing an unseen message from a listed user to the requester raises exactly that user's sidebar count by one. |
| `MessageStore.OtherUsers` | server/controllers/messageController.js:9-11 | A user is listed iff it is stored and is not the requester, and the listing is no longer than the collection. |
| `MessageStore.OtherUsersCounts` | server/controllers/messageController.js:9-11 | The listing holds each user other than the requester exactly as often as the collection does, and never the requester. So it has no duplicates a `User.find` would not return. |
| `MessageStore.UsersForSidebar` | server/controllers/messageController.js:6-34 | Returns every user but the requester. The unread map has a key for a listed user iff that user has unseen messages to the requester, and the value is that count. |
| `MessageStore.UsersForSidebarMatchesReference` | server/controllers/messageController.js:14-26 | An unread map with exactly those keys and values equals the reference `UnseenCounts` map, which the client-side lemmas compare against. |
| `MessageStore.Conversation` | server/controllers/messageController.js:44-50 | Contains exactly the messages with (sender, receiver) equal to (me, other) or (other, me). Each occurs exactly as often as in the store. |
| `MessageStore.MarkConversationSeen` | server/controllers/messageController.js:52-55 | Keeps the store's length and changes no field except `seen`. A message is afterwards seen iff it was seen already or it goes from the other user to me. |
| `MessageStore.MarkConversationSeenCounts` | server/controllers/messageController.js:52-55 | Afterwards the unread count from the other user to me is zero. Every other (sender, receiver) count is unchanged. |
| `MessageStore.GetMessages` | server/controllers/messageController.js:38-63 | Returns the conversation as it was before the update, with the old flags. Each message between the two users occurs exactly as often as in the store, and no other message occurs. Afterwards only `seen` has changed: a message is seen iff it was seen already or it goes from the selected user to me. No unread message from that user to me remains. |
| `MessageStore.MarkSeen` | server/controllers/messageController.js:67-77 | Sets `seen` on the messages with the given id and changes nothing else. |
| `MessageStore.MarkSeenTouchesOnlyThatMessage` | server/controllers/messageController.js:69-70 | With unique ids, exactly the message with the id is marked and every other message is identical. |
| `MessageStore.MarkSeenUnknownId` | server/controllers/messageController.js:69-71 | An id that matches no message leaves the store unchanged. |
| `MessageStore.SendMessage` | server/controllers/messageController.js:78-121 | No text and no image gives 400 "Text or image is required" and stores nothing. A failed upload gives 500 "Image upload failed" and stores nothing. Success gives 201 and stores exactly one message with the sender, the receiver and the text. Its image is the upload URL (`|| ""`), or "" without an image, and it is unseen. |
| `MessageStore.SendMessageCounts` | server/controllers/messageController.js:108-115 | A successful send raises the receiver's unread count from the sender by one. No other count changes, and a failed send changes none. |
| `MessageStore.SendMessageKeepsIdsUnique` | server/controllers/messageController.js:109-115 | A send with a fresh id keeps message ids unique. |
| `Auth.ExtractToken` | server/middleware/auth.js:7-16 | A truthy Authorization header starting with "Bearer" yields its second space-separated piece, whatever the token header says. Otherwise the result is the token header if truthy, else nothing. |
| `Auth.BearerTokenExtracted` | server/middleware/auth.js:9-13 | "Bearer " followed by a space-free token yields that token. |
| `Auth.BearerTokenIsSecondWord` | server/middleware/auth.js:13 | The extracted Bearer token has no space. The header is a space-free first word, a space, the token, then nothing or a space and the rest. |
| `Auth.BearerHeaderTakesPrecedence` | server/middleware/auth.js:9-16 | When the Bearer header applies, the token header has no influence. |
| `Auth.BareBearerHasNoToken` | server/middleware/auth.js:9-19 | A header of exactly "Bearer" yields no token, even when a token header is present. |
| `Auth.FailureMessage` | server/middleware/auth.js:52-57 | JsonWebTokenError gives "Invalid token". TokenExpiredError gives "Token expired". Any other error gives "Authorization failed". |
| `Auth.ProtectRoute` | server/middleware/auth.js:4-64 | A missing or empty token gives 401 "Not authorized - token missing". A thrown verification gives 401 with the message for its error name. A payload without userId gives 400 "Invalid token payload". An unknown user gives 404 "User not found". |
| `Auth.NextIffAuthenticated` | server/middleware/auth.js:27-48 | `next` is called iff the token is present and verifies, the payload has a userId, and that user exists. `req.user` is then that user without the password. |
| `JsValues.Split` | server/middleware/auth.js:13 | `split` always returns at least one piece and no piece contains the separator. There is exactly one piece iff the separator does not occur. |
| `JsValues.JoinSplit` | server/middleware/auth.js:13 | Joining the pieces of a split with the separator gives back the string. |
| `JsValues.SplitJoin` | server/middleware/auth.js:13 | Splitting a join of separator-free pieces gives back the pieces. |
| `JsValues.Piece` | server/middleware/auth.js:13 | `split(sep)[i]` is separator-free when defined. Piece 0 always exists, and piece 1 exists iff the separator occurs in the string. |
| `JsValues.SecondPieceLayout` | server/middleware/auth.js:13 | A second piece is separator-free and sits between the first separator and the next separator or the end. |
| `Records.Redact` | server/middleware/auth.js:37 | `.select("-password")`: the profile keeps the user's id, name and email. |
| `Records.RedactDropsOnlyPassword` | server/middleware/auth.js:37 | Two users give the same profile iff they differ at most in their password. |
| `Records.Find` | server/middleware/auth.js:37 | Stands for `User.findById` here and for `User.findById` and `User.findOne({ email })` in the user controller (server/controllers/userController.js, lines 14, 46 and 80). It finds a stored user whose id or email is the given value. It returns none iff no user has that value. |
| `Accounts.Signup` | server/controllers/userController.js:8-39 | A missing field gives "Missing Details" and an existing email gives "Account already exists"; both leave the store unchanged with no token. Signup succeeds iff all four fields are truthy and no stored user has the email. Success appends exactly one user with the given fields and the hash of the password, and returns a token for the new id. |
| `Accounts.SignupKeepsEmailsUnique` | server/controllers/userController.js:14-26 | Signup never creates a second account for an email. |
| `Accounts.Login` | server/controllers/userController.js:43-59 | An unknown email fails with the caught null-dereference message and no token. A known email with a wrong password gives "Invalid Credentials" and no data. Login succeeds iff the email's user exists and the password compares equal to its hash. `userData` is then exactly the stored user found for that email, and the token is for that user's id. |
| `Accounts.SignupThenLogin` | server/controllers/userController.js:8-59 | After a successful signup, logging in with the same email and password succeeds with a token for the new id, provided compare accepts a password against its own hash. |
| `Accounts.SetProfile` | server/controllers/userController.js:88-93 | Overwrites fullName, bio and profilePic of the user with the id. Ids, emails and password hashes are unchanged, and every other user is identical. |
| `Accounts.SetProfileIsSingleUpdate` | server/controllers/userController.js:80-93 | With unique ids, setting the fields on every user with the id equals updating the one stored user with that id. |
| `Accounts.UpdateProfile` | server/controllers/userController.js:67-113 | Any falsy field gives 400 and no change. A missing user gives 404 and no change. The update succeeds iff all three fields are truthy and a user with the id exists. Success gives 200, updates exactly the three fields, and echoes fullName, bio, profilePic, _id and the stored email. |
| `Accounts.UpdateProfileKeepsLogin` | server/controllers/userController.js:88-93 | A profile update changes neither whether a login succeeds nor the token it returns. |
| `Delivery.SentMessageReachesReceiver` | client/context/ChatContext.jsx:52-60 | A successful send from a connected client emits the stored message readdressed to the selected user. When that user is online, the relay forwards exactly that payload to exactly their socket. |
| `Delivery.ReceiverFilesMessage` | client/context/ChatContext.jsx:74-91 | Setup: the server stores a message for the sending client's selected user. The sending client emits exactly that message. A receiver with the sender open appends it marked seen and requests it be marked. That request, on the server, flags exactly the stored message when its id is fresh. Any other receiver leaves `messages` alone and raises the sender's count by one. |
| `Delivery.SidebarReplySeedsCounts` | client/context/ChatContext.jsx:15-26 | Setup: the client takes a successful sidebar reply with `getUsers`. Its users are then the server's filtered list, and its unread counters equal the server's reference counts. This is the agreement that `ChatClient.NewMessagesTrackServerCounts` preserves. |
| `Delivery.ConversationNeverLoads` | client/context/ChatContext.jsx:32 | As written: for any conversation the server returns, even one that contains a message, the client's `messages` ends up unset. |
| `Delivery.ConversationLoads` | server/controllers/messageController.js:57 | Corrected: reading `messages`, the client holds exactly the conversation between the two users, each message as often as the store has it. |

## Left out

- Transport and framework plumbing is not modelled: socket.io, Express routing, axios, and React hooks (including subscribing and unsubscribing the `newMessage` handler). Events, requests and replies are plain values.
- Presence.OnConnection: the `getOnlineUsers` payload is `Object.keys(userSocketMap)`, an ordered list; the model states it as the key set, because clients use it only as a set.
- Presence.OnDisconnect: the same set-for-list simplification applies to its broadcast.
- Presence.OnSendMessage: keys inherited from `Object.prototype` are not modelled. For example, a receiverId of "constructor" makes the lookup return a function. The table is modelled as a plain map.
- Presence.OnConnection: for the same reason, a handshake `userId` of "__proto__" is stored as an ordinary key in the model. In the source, assigning a socket id string to `__proto__` is ignored, so no key is added.
- A `sendMessage` event whose payload is `null` throws inside the handler; not modelled, because the relay's payload type always has a receiverId accessor.
- A handshake `userId` given as an array is not modelled. The query string is taken as a string or absent.
- Presence.Deliver: an event on a socket that is not connected is a no-op. socket.io never raises one, so this branch has no counterpart in the source.
- Guarded deregistration, teardown of superseded sockets, skipped broadcasts on no-op disconnects and handshake authentication belong to the intended design, not the code, so they are not in the model.
- MongoDB failures are not modelled. This covers every catch block that replies with the error's message, the 500 "Server error while sending message", the 500 "Internal server error" of a failed save, and the CastError of a malformed ObjectId (which the middleware reports as 401 "Authorization failed").
- MessageStore.Conversation: no order of the returned messages is promised, because `.sort({ created: 1 })` names a field that messages do not have.
- MessageStore.MarkSeen: marks every document with the id, where `findByIdAndUpdate` marks the first. Under unique `_id`s these agree (`MarkSeenTouchesOnlyThatMessage`).
- Accounts.SetProfile: sets the fields on every user with the id, where `User.findById` loads one document and `save` writes it back. Under unique `_id`s these agree (`SetProfileIsSingleUpdate`); `UpdateProfile` inherits the same difference.
- Timestamps (`createdAt`) and time formatting are not modelled.
- ChatClient.SendMessage: the reply is applied to the state the call started from. State changes made by other handlers while the request is in flight are not modelled.
- JWT signing and verification, bcrypt and the Cloudinary upload are parameters. `hash` includes the salt generated for the call. The password is therefore stated to be stored as `hash(password)`, not proved different from the raw password.
- Accounts.Login: takes the email and password as strings. A body without them, which makes Mongoose query with `undefined`, is not modelled.
- `checkAuth` (server/controllers/userController.js:63-65) only echoes `req.user`, so it is not modelled.
- The signup and login replies include the stored document, password hash included. The model keeps this as it is (`userData` is the full `User`).
- `profilePic` of a new user is taken as "". The schema in models/User.js is not part of this model.
- `seen` of a newly sent message is taken as `false`, the default the message schema supplies. The schema in models/Message.js is not part of this model.

## Findings

| source | as written | input that shows it | evidently intended | confidence | as-written member | corrected member |
|---|---|---|---|---|---|---|
| client/context/ChatContext.jsx:32 | `setMessages(data.message)`, while server/controllers/messageController.js:57 replies `{ success: true, messages }` | any successful conversation reply, e.g. a store holding one message from `other` to `me` | `setMessages(data.messages)`: the client shows the conversation it fetched | high (not executed) | `Delivery.ConversationNeverLoads` (over `ChatClient.GetMessages`) | `Delivery.ConversationLoads` (over `ChatClient.GetMessagesIntended`) |

=== FILE: accounts.dfy ===
/** `signup`, `login` and `updateProfile` of server/controllers/userController.js
    over an in-memory user collection in place of MongoDB. Password hashing,
    password comparison and token signing are parameters: bcrypt and JWT are
    not interpreted. */
module Accounts {
  import opened JsValues
  import opened Records

  /** The users after a handler, and its reply. */
  datatype Stored<R> = Stored(users: seq<User>, reply: R)

  /** The signup body; `None` for an absent field. */
  datatype SignupForm = SignupForm(fullName: Option<string>, email: Option<string>, password: Option<string>, bio: Option<string>)

  /** The reply of `signup` and `login`. `userData` is the stored document,
      password hash included, as the handlers send it. */
  datatype AuthReply = AuthReply(success: bool, message: string, userData: Option<User>, token: Option<string>)

  /** `signup`. `hash` stands for `bcrypt.hash(password, salt)` with the salt the
      call generates, `sign` for `generateToken`, and `newId` for the `_id`
      MongoDB assigns to the new document. */
  function Signup(users: seq<User>, form: SignupForm, hash: string -> string, sign: string -> string, newId: string): (r: Stored<AuthReply>)
    ensures !(Truthy(form.fullName) && Truthy(form.email) && Truthy(form.password) && Truthy(form.bio)) ==>
              r == Stored(users, AuthReply(false, "Missing Details", None, None))
    ensures Truthy(form.fullName) && Truthy(form.email) && Truthy(form.password) && Truthy(form.bio) &&
            (exists u :: u in users && u.email == form.email.value) ==>
              r == Stored(users, AuthReply(false, "Account already exists", None, None))
    ensures r.reply.success <==> Truthy(form.fullName) && Truthy(form.email) && Truthy(form.password) &&
                                 Truthy(form.bio) && forall u :: u in users ==> u.email != form.email.value
    ensures !r.reply.success ==> r.users == users && r.reply.token.None?
    ensures r.reply.success ==>
              && r.reply.userData.Some?
              && r.users == users + [r.reply.userData.value]
              && r.reply.userData.value == User(newId, form.fullName.value, form.email.value, hash(form.password.value), form.bio.value, "")
              && r.reply.token == Some(sign(newId))
              && r.reply.message == "Account created successfully"
  {
    if !(Truthy(form.fullName) && Truthy(form.email) && Truthy(form.password) && Truthy(form.bio)) then
      Stored(users, AuthReply(false, "Missing Details", None, None))
    else if Find(users, ByEmail, form.email.value).Some? then
      Stored(users, AuthReply(false, "Account already exists", None, None))
    else
      var newUser := User(newId, form.fullName.value, form.email.value, hash(form.password.value), form.bio.value, "");
      Stored(users + [newUser], AuthReply(true, "Account created successfully", Some(newUser), Some(sign(newId))))
  }

  /** No two users share an email. */
  ghost predicate UniqueEmails(users: seq<User>) {
    forall i, j :: 0 <= i < j < |users| ==> users[i].email != users[j].email
  }

  /** Signup never registers a second account for an email. */
  lemma SignupKeepsEmailsUnique(users: seq<User>, form: SignupForm, hash: string -> string, sign: string -> string, newId: string)
    requires UniqueEmails(users)
    ensures UniqueEmails(Signup(users, form, hash, sign, newId).users)
  {
    var r := Signup(users, form, hash, sign, newId);
    if r.reply.success {
      forall i | 0 <= i < |users|
        ensures users[i].email != form.email.value
      {
        assert users[i] in users;
      }
    }
  }

  /** What `login` throws on an unknown email: `userData` is `null` and
      `userData.password` is read; the catch replies with the error's message. */
  const NullPasswordRead := "Cannot read properties of null (reading 'password')"

  /** `login`. `compare(password, hash)` stands for `bcrypt.compare`. */
  function Login(users: seq<User>, email: string, password: string, compare: (string, string) -> bool,
                 sign: string -> string): (r: AuthReply)
    ensures (forall u :: u in users ==> u.email != email) ==> r == AuthReply(false, NullPasswordRead, None, None)
    ensures r.success <==> exists u :: u in users && u.email == email && compare(password, u.password) &&
                                      Find(users, ByEmail, email) == Some(u)
    ensures r.success ==> r.userData == Find(users, ByEmail, email) && r.userData.Some? &&
                          r.token == Some(sign(r.userData.value.id)) && r.message == "Login Successfully"
    ensures Find(users, ByEmail, email).Some? && !compare(password, Find(users, ByEmail, email).value.password) ==>
              r == AuthReply(false, "Invalid Credentials", None, None)
    ensures !r.success ==> r.token.None? && r.userData.None?
  {
    match Find(users, ByEmail, email)
    case None => AuthReply(false, NullPasswordRead, None, None)
    case Some(u) =>
      if !compare(password, u.password) then AuthReply(false, "Invalid Credentials", None, None)
      else AuthReply(true, "Login Successfully", Some(u), Some(sign(u.id)))
  }

  /** A user who just signed up can log in with the same password, and gets a
      token for the new id, provided `compare` accepts a password against its own hash. */
  lemma SignupThenLogin(users: seq<User>, form: SignupForm, hash: string -> string, sign: string -> string,
                        newId: string, compare: (string, string) -> bool)
    requires Signup(users, form, hash, sign, newId).reply.success
    requires compare(form.password.value, hash(form.password.value))
    ensures var after := Signup(users, form, hash, sign, newId).users;
            var r := Login(after, form.email.value, form.password.value, compare, sign);
            r.success && r.token == Some(sign(newId))
  {
    var s := Signup(users, form, hash, sign, newId);
    FindByEmailAppend(users, s.reply.userData.value);
  }

  lemma {:induction false} FindByEmailAppend(users: seq<User>, u: User)
    requires forall v :: v in users ==> v.email != u.email
    ensures Find(users + [u], ByEmail, u.email) == Some(u)
    decreases |users|
  {
    if |users| == 0 {
    } else {
      assert (users + [u])[1..] == users[1..] + [u];
      assert users[0] in users;
      FindByEmailAppend(users[1..], u);
    }
  }

  /** The `updateProfile` body; `None` for an absent field. */
  datatype ProfileForm = ProfileForm(fullName: Option<string>, bio: Option<string>, profilePic: Option<string>)

  /** The `updatedUser` object of a successful update. */
  datatype UpdatedUser = UpdatedUser(fullName: string, bio: string, profilePic: string, id: string, email: string)

  datatype ProfileReply = ProfileReply(status: int, success: bool, message: string, updatedUser: Option<UpdatedUser>)

  const FieldsRequired := "All fields (fullName, bio, profilePic) are required"

  /** The three profile fields of every user with id `id` set from the form. */
  function SetProfile(users: seq<User>, id: string, fullName: string, bio: string, profilePic: string): (r: seq<User>)
    ensures |r| == |users|
    ensures forall i :: 0 <= i < |users| ==>
              && r[i].id == users[i].id && r[i].email == users[i].email && r[i].password == users[i].password
              && (users[i].id != id ==> r[i] == users[i])
              && (users[i].id == id ==> r[i].fullName == fullName && r[i].bio == bio && r[i].profilePic == profilePic)
  {
    seq(|users|, i requires 0 <= i < |users| =>
      if users[i].id == id then users[i].(fullName := fullName, bio := bio, profilePic := profilePic) else users[i])
  }

  /** With unique ids, updating every user with the id is updating the single
      document `User.findById` returns and saving it. */
  lemma SetProfileIsSingleUpdate(users: seq<User>, k: nat, fullName: string, bio: string, profilePic: string)
    requires k < |users|
    requires forall i, j :: 0 <= i < j < |users| ==> users[i].id != users[j].id
    ensures SetProfile(users, users[k].id, fullName, bio, profilePic) ==
            users[k := users[k].(fullName := fullName, bio := bio, profilePic := profilePic)]
  {
  }

  /** `updateProfile` for the authenticated user `me`. */
  function UpdateProfile(users: seq<User>, me: string, form: ProfileForm): (r: Stored<ProfileReply>)
    ensures !(Truthy(form.fullName) && Truthy(form.bio) && Truthy(form.profilePic)) ==>
              r == Stored(users, ProfileReply(400, false, FieldsRequired, None))
    ensures Truthy(form.fullName) && Truthy(form.bio) && Truthy(form.profilePic) &&
            (forall u :: u in users ==> u.id != me) ==>
              r == Stored(users, ProfileReply(404, false, "User not found", None))
    ensures r.reply.success <==> Truthy(form.fullName) && Truthy(form.bio) && Truthy(form.profilePic) &&
                                 exists u :: u in users && u.id == me
    ensures !r.reply.success ==> r.users == users && r.reply.updatedUser.None?
    ensures r.reply.success ==>
              && r.reply.status == 200
              && exists u :: u in users && u.id == me &&
                   r.reply.updatedUser == Some(UpdatedUser(form.fullName.value, form.bio.value, form.profilePic.value, me, u.email))
    ensures r.reply.success ==> r.users == SetProfile(users, me, form.fullName.value, form.bio.value, form.profilePic.value)
  {
    if !(Truthy(form.fullName) && Truthy(form.bio) && Truthy(form.profilePic)) then
      Stored(users, ProfileReply(400, false, FieldsRequired, None))
    else
      match Find(users, ById, me)
      case None => Stored(users, ProfileReply(404, false, "User not found", None))
      case Some(u) =>
        var updated := SetProfile(users, me, form.fullName.value, form.bio.value, form.profilePic.value);
        Stored(updated, ProfileReply(200, true, "Profile updated successfully",
                                     Some(UpdatedUser(form.fullName.value, form.bio.value, form.profilePic.value, u.id, u.email))))
  }

  /** A profile update never changes who can log in, nor the token they get. */
  lemma {:induction false} UpdateProfileKeepsLogin(users: seq<User>, me: string, form: ProfileForm, email: string,
                                                   password: string, compare: (string, string) -> bool, sign: string -> string)
    ensures var after := UpdateProfile(users, me, form).users;
            && Login(after, email, password, compare, sign).success == Login(users, email, password, compare, sign).success
            && Login(after, email, password, compare, sign).token == Login(users, email, password, compare, sign).token
  {
    var r := UpdateProfile(users, me, form);
    if r.reply.success {
      FindByEmailSetProfile(users, me, form.fullName.value, form.bio.value, form.profilePic.value, email);
    }
  }

  lemma {:induction false} FindByEmailSetProfile(users: seq<User>, id: string, fullName: string, bio: string,
                                                 profilePic: string, email: string)
    ensures var before := Find(users, ByEmail, email);
            var after := Find(SetProfile(users, id, fullName, bio, profilePic), ByEmail, email);
            && before.Some? == after.Some?
            && (before.Some? ==> after.value.id == before.value.id && after.value.password == before.value.password)
    decreases |users|
  {
    if |users| > 0 {
      var r := SetProfile(users, id, fullName, bio, profilePic);
      assert r[1..] == SetProfile(users[1..], id, fullName, bio, profilePic);
      FindByEmailSetProfile(users[1..], id, fullName, bio, profilePic, email);
    }
  }
}

=== FILE: auth.dfy ===
/** `protectRoute` of server/middleware/auth.js: find the token in the request
    headers, verify it, resolve its user, and either call `next` with that user
    or answer with an error status. JWT verification is a parameter: the model
    does not interpret tokens. */
module Auth {
  import opened JsValues
  import opened Records

  /** The two headers the middleware reads; `None` when a header is absent. */
  datatype Headers = Headers(authorization: Option<string>, token: Option<string>)

  /** What `jwt.verify(token, secret)` does: return the decoded payload (of which
      only `userId` is read, `None` when the payload has none), or throw an
      error carrying its `name`. */
  datatype Verification = Decoded(userId: Option<string>) | Thrown(errorName: string)

  /** The middleware's decision: call `next` with `req.user` set, or reply. */
  datatype Decision = Next(user: Profile) | Deny(status: int, message: string)

  const BearerScheme := "Bearer"

  /** Step 1: the `token` variable. An `Authorization` header that starts with
      "Bearer" wins, and its token is the second space-separated piece, even
      when that is missing or empty; otherwise the `token` header, if truthy. */
  function ExtractToken(h: Headers): (token: Option<string>)
    ensures Truthy(h.authorization) && StartsWith(h.authorization.value, BearerScheme) ==>
              token == Piece(h.authorization.value, ' ', 1)
    ensures !(Truthy(h.authorization) && StartsWith(h.authorization.value, BearerScheme)) ==>
              (token.Some? <==> Truthy(h.token)) && (token.Some? ==> token == h.token)
  {
    if Truthy(h.authorization) && StartsWith(h.authorization.value, BearerScheme) then
      Piece(h.authorization.value, ' ', 1)
    else if Truthy(h.token) then
      h.token
    else
      None
  }

  /** "Bearer " followed by a token without spaces yields that token. */
  lemma BearerTokenExtracted(tok: string, other: Option<string>)
    requires ' ' !in tok
    ensures ExtractToken(Headers(Some(BearerScheme + " " + tok), other)) == Some(tok)
  {
    var header := BearerScheme + " " + tok;
    assert header == BearerScheme + [' '] + tok;
    SplitAfterFirst(BearerScheme, ' ', tok);
    JoinSplit(tok, ' ');
    assert Split(tok, ' ') == [tok];
    assert BearerScheme <= header;
  }

  /** The token taken from a "Bearer" header is its second word: the header is
      a space-free first word, one space, the token (itself space-free), and
      then either nothing or a space and the rest. */
  lemma BearerTokenIsSecondWord(h: Headers)
    requires Truthy(h.authorization) && StartsWith(h.authorization.value, BearerScheme)
    requires ExtractToken(h).Some?
    ensures var tok := ExtractToken(h).value;
            && ' ' !in tok
            && exists first, rest :: SecondPieceAt(h.authorization.value, ' ', tok, first, rest)
  {
    var header := h.authorization.value;
    SecondPieceLayout(header, ' ');
  }

  /** When the "Bearer" header applies, the `token` header is ignored. */
  lemma BearerHeaderTakesPrecedence(authorization: string, t1: Option<string>, t2: Option<string>)
    requires StartsWith(authorization, BearerScheme)
    ensures ExtractToken(Headers(Some(authorization), t1)) == ExtractToken(Headers(Some(authorization), t2))
  {
  }

  /** A bare "Bearer" has no second piece: no token, whatever the `token` header says. */
  lemma BareBearerHasNoToken(other: Option<string>)
    ensures ExtractToken(Headers(Some(BearerScheme), other)) == None
  {
    assert ' ' !in BearerScheme;
  }

  /** The message of the catch block, chosen by the thrown error's name. */
  function FailureMessage(errorName: string): (message: string)
    ensures errorName == "JsonWebTokenError" ==> message == "Invalid token"
    ensures errorName == "TokenExpiredError" ==> message == "Token expired"
    ensures errorName != "JsonWebTokenError" && errorName != "TokenExpiredError" ==> message == "Authorization failed"
  {
    if errorName == "JsonWebTokenError" then "Invalid token"
    else if errorName == "TokenExpiredError" then "Token expired"
    else "Authorization failed"
  }

  /** `protectRoute` against the user store `users`, with `verify` standing for
      `jwt.verify` under the server's secret. */
  function ProtectRoute(h: Headers, verify: string -> Verification, users: seq<User>): (d: Decision)
    ensures !Truthy(ExtractToken(h)) ==> d == Deny(401, "Not authorized - token missing")
    ensures Truthy(ExtractToken(h)) && verify(ExtractToken(h).value).Thrown? ==>
              d == Deny(401, FailureMessage(verify(ExtractToken(h).value).errorName))
    ensures Truthy(ExtractToken(h)) && verify(ExtractToken(h).value).Decoded? &&
            !Truthy(verify(ExtractToken(h).value).userId) ==>
              d == Deny(400, "Invalid token payload")
    ensures Truthy(ExtractToken(h)) && verify(ExtractToken(h).value).Decoded? &&
            Truthy(verify(ExtractToken(h).value).userId) &&
            Find(users, ById, verify(ExtractToken(h).value).userId.value).None? ==>
              d == Deny(404, "User not found")
    ensures d.Deny? ==> d.status in {400, 401, 404}
  {
    var token := ExtractToken(h);
    if !Truthy(token) then
      Deny(401, "Not authorized - token missing")
    else
      match verify(token.value)
      case Thrown(name) => Deny(401, FailureMessage(name))
      case Decoded(userId) =>
        if !Truthy(userId) then Deny(400, "Invalid token payload")
        else
          match Find(users, ById, userId.value)
          case None => Deny(404, "User not found")
          case Some(u) => Next(Redact(u))
  }

  /** `next` runs exactly when a token is present, verifies, names a user id,
      and that user exists; `req.user` is then that user without the password. */
  lemma NextIffAuthenticated(h: Headers, verify: string -> Verification, users: seq<User>)
    ensures var d := ProtectRoute(h, verify, users);
            d.Next? <==>
              && Truthy(ExtractToken(h))
              && verify(ExtractToken(h).value).Decoded?
              && Truthy(verify(ExtractToken(h).value).userId)
              && Find(users, ById, verify(ExtractToken(h).value).userId.value).Some?
    ensures var d := ProtectRoute(h, verify, users);
            d.Next? ==> exists u :: u in users && u.id == verify(ExtractToken(h).value).userId.value && d.user == Redact(u)
  {
    var d := ProtectRoute(h, verify, users);
    if d.Next? {
      var u := Find(users, ById, verify(ExtractToken(h).value).userId.value).value;
      assert u in users && d.user == Redact(u);
    }
  }
}

=== FILE: chat_client.dfy ===
/** The chat state of client/context/ChatContext.jsx: the `newMessage` socket
    handler, `sendMessage`, `getUsers` and `getMessages`, each as a transition
    of the React state that also lists the requests, socket emits and toasts it
    causes. Server replies are parameters: the model does not perform requests. */
module ChatClient {
  import opened JsValues
  import opened Records
  import MessageStore

  /** The provider's state. `messages` is `None` when it was set to `undefined`
      or `null`; `selected` is `selectedUser`, `None` when nothing is selected. */
  datatype ChatState = ChatState(messages: Option<seq<Message>>, users: seq<Profile>,
                                 selected: Option<Profile>, unseen: map<string, int>)

  /** What a transition causes outside the state. */
  datatype Effect = PostMessage(receiverId: string, draft: Draft)   // axios.post(`/api/messages/send/${id}`)
                  | EmitSendMessage(payload: Message)               // socket.emit("sendMessage", ...)
                  | PutMarkSeen(messageId: string)                  // axios.put(`/api/messages/mark/${id}`)
                  | Toast(text: string)                             // toast.error(...)

  datatype Transition = Transition(state: ChatState, effects: seq<Effect>)

  /** `[...(prev || []), m]` */
  function Append(prev: Option<seq<Message>>, m: Message): (r: Option<seq<Message>>)
    ensures r.Some? && |r.value| == |prev.GetOr([])| + 1
    ensures r.value[..|r.value| - 1] == prev.GetOr([]) && r.value[|r.value| - 1] == m
  {
    Some(prev.GetOr([]) + [m])
  }

  /** `{ ...prev, [sender]: prev[sender] ? prev[sender] + 1 : 1 }` */
  function Bump(prev: map<string, int>, sender: string): (r: map<string, int>)
    ensures r.Keys == prev.Keys + {sender}
    ensures r[sender] == (if sender in prev then prev[sender] else 0) + 1
    ensures forall u :: u in prev && u != sender ==> r[u] == prev[u]
  {
    prev[sender := if sender in prev && prev[sender] != 0 then prev[sender] + 1 else 1]
  }

  /** The `newMessage` handler: drop a missing message or one without a sender;
      append a message from the selected user, marked seen, and ask the server
      to mark it; otherwise count it as unseen for its sender. */
  function OnNewMessage(st: ChatState, incoming: Option<Message>): (r: Transition)
    ensures incoming.None? || incoming.value.senderId == "" ==> r == Transition(st, [])
    ensures incoming.Some? && incoming.value.senderId != "" && st.selected.Some? &&
            incoming.value.senderId == st.selected.value.id ==>
              && r.state == st.(messages := Append(st.messages, incoming.value.(seen := true)))
              && r.effects == [PutMarkSeen(incoming.value.id)]
    ensures incoming.Some? && incoming.value.senderId != "" &&
            !(st.selected.Some? && incoming.value.senderId == st.selected.value.id) ==>
              && r.state == st.(unseen := Bump(st.unseen, incoming.value.senderId))
              && r.effects == []
    ensures r.state.users == st.users && r.state.selected == st.selected
  {
    match incoming
    case None => Transition(st, [])
    case Some(m) =>
      if m.senderId == "" then Transition(st, [])
      else if st.selected.Some? && m.senderId == st.selected.value.id then
        Transition(st.(messages := Append(st.messages, m.(seen := true))), [PutMarkSeen(m.id)])
      else
        Transition(st.(unseen := Bump(st.unseen, m.senderId)), [])
  }

  /** What the send request produced: the reply's `success`, `newMessage` and
      `message`, or a thrown error with the reply's `message`, if any. */
  datatype SendResult = SendReplied(success: bool, newMessage: Message, message: string)
                      | SendThrew(replyMessage: Option<string>)

  const NoUserSelected := "No user selected to send message."

  /** `sendMessage(draft)`. `connected` is `socket && authUser`; `result` is what
      the POST produced (ignored when no request is made). */
  function SendMessage(st: ChatState, draft: Draft, connected: bool, result: SendResult): (r: Transition)
    ensures st.selected.None? || st.selected.value.id == "" ==> r == Transition(st, [Toast(NoUserSelected)])
    ensures st.selected.Some? && st.selected.value.id != "" && result.SendReplied? && result.success ==>
              && r.state == st.(messages := Append(st.messages, result.newMessage))
              && r.effects == [PostMessage(st.selected.value.id, draft)] +
                              (if connected then [EmitSendMessage(result.newMessage.(receiverId := st.selected.value.id))] else [])
    ensures st.selected.Some? && st.selected.value.id != "" && result.SendReplied? && !result.success ==>
              r.effects == [PostMessage(st.selected.value.id, draft), Toast(result.message)]
    ensures st.selected.Some? && st.selected.value.id != "" && result.SendThrew? ==>
              r.effects == [PostMessage(st.selected.value.id, draft), Toast(OrElse(result.replyMessage, "Failed to send message"))]
    ensures !(result.SendReplied? && result.success) ==> r.state == st
    ensures r.state.unseen == st.unseen && r.state.selected == st.selected && r.state.users == st.users
  {
    if st.selected.None? || st.selected.value.id == "" then
      Transition(st, [Toast(NoUserSelected)])
    else
      var receiverId := st.selected.value.id;
      var post := PostMessage(receiverId, draft);
      match result
      case SendReplied(success, newMessage, message) =>
        if success then
          var emitted := if connected then [EmitSendMessage(newMessage.(receiverId := receiverId))] else [];
          Transition(st.(messages := Append(st.messages, newMessage)), [post] + emitted)
        else
          Transition(st, [post, Toast(message)])
      case SendThrew(replyMessage) =>
        Transition(st, [post, Toast(OrElse(replyMessage, "Failed to send message"))])
  }

  /** What `GET /api/messages/users` produced; a thrown error carries the toast
      text, `error?.response?.data?.message || error.message`. */
  datatype UsersResult = UsersReplied(success: bool, users: seq<Profile>, unseenMessages: Option<map<string, int>>)
                       | UsersThrew(text: string)

  /** `getUsers`: on a successful reply, take its users and unread counts
      (`{}` when the reply has none); otherwise keep the state. */
  function GetUsers(st: ChatState, result: UsersResult): (r: Transition)
    ensures result.UsersReplied? && result.success ==>
              && r.state.users == result.users
              && (result.unseenMessages.Some? ==> r.state.unseen == result.unseenMessages.value)
              && (result.unseenMessages.None? ==> r.state.unseen == map[])
              && r.effects == []
    ensures result.UsersReplied? && !result.success ==> r == Transition(st, [])
    ensures result.UsersThrew? ==> r == Transition(st, [Toast(result.text)])
    ensures r.state.messages == st.messages && r.state.selected == st.selected
  {
    match result
    case UsersReplied(success, users, unseenMessages) =>
      if success then Transition(st.(users := users, unseen := unseenMessages.GetOr(map[])), [])
      else Transition(st, [])
    case UsersThrew(text) => Transition(st, [Toast(text)])
  }

  /** What `GET /api/messages/:id` produced: `success`, and the reply's
      `message` and `messages` fields, each `None` when the reply lacks it. */
  datatype MessagesResult = MessagesReplied(success: bool, message: Option<seq<Message>>, messages: Option<seq<Message>>)
                          | MessagesThrew

  /** `getMessages` as written: on success, `messages` becomes the reply's
      `message` field, `None` when the reply has no such field. */
  function GetMessages(st: ChatState, result: MessagesResult): (r: Transition)
    ensures result.MessagesReplied? && result.success ==> r.state == st.(messages := result.message) && r.effects == []
    ensures result.MessagesThrew? ==> r.state == st && r.effects == [Toast("Failed to load messages.")]
    ensures result.MessagesReplied? && !result.success ==> r == Transition(st, [])
  {
    match result
    case MessagesReplied(success, message, _) =>
      if success then Transition(st.(messages := message), []) else Transition(st, [])
    case MessagesThrew => Transition(st, [Toast("Failed to load messages.")])
  }

  /** `getMessages` reading the field the server sends, `messages`; otherwise
      as `GetMessages`. */
  function GetMessagesIntended(st: ChatState, result: MessagesResult): (r: Transition)
    ensures result.MessagesReplied? && result.success ==> r.state == st.(messages := result.messages) && r.effects == []
    ensures result.MessagesThrew? ==> r.state == st && r.effects == [Toast("Failed to load messages.")]
    ensures result.MessagesReplied? && !result.success ==> r == Transition(st, [])
  {
    match result
    case MessagesReplied(success, _, messages) =>
      if success then Transition(st.(messages := messages), []) else Transition(st, [])
    case MessagesThrew => Transition(st, [Toast("Failed to load messages.")])
  }

  // ---------------------------------------------------------------------------
  // The client's unread counters and the server's

  /** The client's counters equal the counts the server's sidebar would report
      for `me` over `store` and the listed `users`. */
  ghost predicate CountsAgree(unseen: map<string, int>, users: seq<Profile>, store: seq<Message>, me: string) {
    unseen == MessageStore.UnseenCounts(users, store, me)
  }

  /** A message stored for `me` by a listed user other than the selected one,
      then relayed to this client, keeps the counters equal to the server's. */
  lemma NewMessageTracksServerCount(st: ChatState, store: seq<Message>, me: string, m: Message)
    requires CountsAgree(st.unseen, st.users, store, me)
    requires m.senderId != "" && m.senderId != me && m.receiverId == me && !m.seen
    requires exists p :: p in st.users && p.id == m.senderId
    requires !(st.selected.Some? && st.selected.value.id == m.senderId)
    ensures CountsAgree(OnNewMessage(st, Some(m)).state.unseen, st.users, store + [m], me)
  {
    var s := m.senderId;
    var p :| p in st.users && p.id == s;
    assert s in MessageStore.SidebarIds(st.users, me);
    MessageStore.UnseenCountsAfterStore(st.users, store, me, m);
    var n := MessageStore.CountUnseen(store, s, me);
    assert s !in st.unseen ==> n == 0;
    var after := OnNewMessage(st, Some(m)).state.unseen;
    assert after == Bump(st.unseen, s);
    assert after == st.unseen[s := n + 1];
  }

  /** A message the server stored for `me`, unseen, from a listed user other
      than `me` and other than the selected user. */
  ghost predicate CountedOnArrival(st: ChatState, me: string, m: Message) {
    && m.senderId != "" && m.senderId != me && m.receiverId == me && !m.seen
    && (exists p :: p in st.users && p.id == m.senderId)
    && !(st.selected.Some? && st.selected.value.id == m.senderId)
  }

  /** One step of the induction below: the first message keeps the counters
      in agreement, and the rest still qualify in the new state. */
  lemma FirstMessageTracked(st: ChatState, store: seq<Message>, me: string, ms: seq<Message>)
    requires |ms| > 0
    requires CountsAgree(st.unseen, st.users, store, me)
    requires forall i :: 0 <= i < |ms| ==> CountedOnArrival(st, me, ms[i])
    ensures var next := OnNewMessage(st, Some(ms[0])).state;
            && next.users == st.users
            && CountsAgree(next.unseen, next.users, store + [ms[0]], me)
            && forall i :: 0 <= i < |ms[1..]| ==> CountedOnArrival(next, me, ms[1..][i])
  {
    var next := OnNewMessage(st, Some(ms[0])).state;
    assert CountedOnArrival(st, me, ms[0]);
    NewMessageTracksServerCount(st, store, me, ms[0]);
    forall i | 0 <= i < |ms[1..]|
      ensures CountedOnArrival(next, me, ms[1..][i])
    {
      assert CountedOnArrival(st, me, ms[i + 1]);
    }
  }

  /** Over any sequence of such messages, the counters stay equal to the server's. */
  lemma {:induction false} NewMessagesTrackServerCounts(st: ChatState, store: seq<Message>, me: string, ms: seq<Message>)
    requires CountsAgree(st.unseen, st.users, store, me)
    requires forall i :: 0 <= i < |ms| ==> CountedOnArrival(st, me, ms[i])
    ensures CountsAgree(Receive(st, ms).unseen, st.users, store + ms, me)
    decreases |ms|
  {
    if |ms| == 0 {
      assert store + ms == store;
    } else {
      var next := OnNewMessage(st, Some(ms[0])).state;
      FirstMessageTracked(st, store, me, ms);
      NewMessagesTrackServerCounts(next, store + [ms[0]], me, ms[1..]);
      ReceiveFirst(st, ms);
      AppendFirst(store, ms);
    }
  }

  /** Receiving a non-empty sequence is receiving its first message, then the rest. */
  lemma ReceiveFirst(st: ChatState, ms: seq<Message>)
    requires |ms| > 0
    ensures Receive(st, ms) == Receive(OnNewMessage(st, Some(ms[0])).state, ms[1..])
  {
  }

  /** Storing the first message, then the rest, stores the whole sequence. */
  lemma AppendFirst(store: seq<Message>, ms: seq<Message>)
    requires |ms| > 0
    ensures store + [ms[0]] + ms[1..] == store + ms
  {
    assert [ms[0]] + ms[1..] == ms;
  }

  /** The state after the `newMessage` handler has run on each message in turn. */
  function Receive(st: ChatState, ms: seq<Message>): ChatState
    decreases |ms|
  {
    if |ms| == 0 then st else Receive(OnNewMessage(st, Some(ms[0])).state, ms[1..])
  }
}

=== FILE: delivery.dfy ===
/** How the pieces meet: the server's replies as the client reads them, the
    payload a client emits after a successful send, what the relay forwards,
    and how the receiving client files it. */
module Delivery {
  import opened JsValues
  import opened Records
  import Presence
  import MessageStore
  import ChatClient

  /** The relay reads `message.receiverId` of the client's payload. */
  function ReceiverOf(m: Message): Option<string> {
    Some(m.receiverId)
  }

  /** A successful send from a connected client whose selected user is online
      reaches exactly that user's socket, with the stored message as payload,
      readdressed to the selected user. */
  lemma SentMessageReachesReceiver(st: ChatClient.ChatState, draft: Draft, result: ChatClient.SendResult,
                                   table: Presence.Table)
    requires st.selected.Some? && st.selected.value.id != ""
    requires result.SendReplied? && result.success
    requires st.selected.value.id in table && table[st.selected.value.id] != ""
    ensures var payload := result.newMessage.(receiverId := st.selected.value.id);
            && ChatClient.EmitSendMessage(payload) in ChatClient.SendMessage(st, draft, true, result).effects
            && Presence.OnSendMessage(table, payload, ReceiverOf).emitted ==
                 [Presence.NewMessage(table[st.selected.value.id], payload)]
  {
    var payload := result.newMessage.(receiverId := st.selected.value.id);
    var step := Presence.OnSendMessage(table, payload, ReceiverOf);
    assert |step.emitted| == 1;
  }

  /** From the server's store to the receiving client: the message the server
      stores for the selected user is what the sending client emits. A
      receiver who has the sender open appends it marked seen, and its
      mark-seen request then flags exactly that stored message. Any other
      receiver only counts it. */
  lemma ReceiverFilesMessage(store: seq<Message>, sender: string, draft: Draft, upload: MessageStore.UploadOutcome,
                             newId: string, sending: ChatClient.ChatState, peer: ChatClient.ChatState)
    requires sender != ""
    requires sending.selected.Some? && sending.selected.value.id != ""
    requires forall i :: 0 <= i < |store| ==> store[i].id != newId
    ensures var server := MessageStore.SendMessage(store, sender, sending.selected.value.id, draft, upload, newId);
            server.reply.success ==>
              var m := server.reply.newMessage.value;
              var sent := ChatClient.SendMessage(sending, draft, true, ChatClient.SendReplied(true, m, server.reply.message));
              var t := ChatClient.OnNewMessage(peer, Some(m));
              && ChatClient.EmitSendMessage(m) in sent.effects
              && (peer.selected.Some? && peer.selected.value.id == sender ==>
                    && t.effects == [ChatClient.PutMarkSeen(newId)]
                    && t.state.messages.Some? && |t.state.messages.value| > 0
                    && t.state.messages.value[|t.state.messages.value| - 1] == m.(seen := true)
                    && MessageStore.MarkSeen(server.store, newId) == store + [m.(seen := true)])
              && (!(peer.selected.Some? && peer.selected.value.id == sender) ==>
                    && t.effects == [] && t.state.messages == peer.messages
                    && t.state.unseen[sender] == (if sender in peer.unseen then peer.unseen[sender] else 0) + 1)
  {
    var server := MessageStore.SendMessage(store, sender, sending.selected.value.id, draft, upload, newId);
    if server.reply.success {
      var m := server.reply.newMessage.value;
      assert m.(receiverId := sending.selected.value.id) == m;
      var marked := MessageStore.MarkSeen(server.store, newId);
      assert forall i :: 0 <= i < |store| ==> marked[i] == store[i];
      assert marked == store + [m.(seen := true)];
    }
  }

  /** A successful sidebar reply, taken by the client's `getUsers`, leaves its
      unread counters equal to the server's reference counts: the starting point
      of `ChatClient.NewMessagesTrackServerCounts`. */
  lemma SidebarReplySeedsCounts(st: ChatClient.ChatState, users: seq<Profile>, store: seq<Message>, me: string,
                                filtered: seq<Profile>, unseen: map<string, nat>)
    requires filtered == MessageStore.OtherUsers(users, me)
    requires forall u :: u in unseen <==> u in MessageStore.SidebarIds(users, me) && MessageStore.CountUnseen(store, u, me) > 0
    requires forall u :: u in unseen ==> unseen[u] == MessageStore.CountUnseen(store, u, me)
    ensures var r := ChatClient.GetUsers(st, ChatClient.UsersReplied(true, filtered, Some(unseen)));
            && r.state.users == filtered
            && ChatClient.CountsAgree(r.state.unseen, r.state.users, store, me)
  {
    MessageStore.UsersForSidebarMatchesReference(unseen, users, store, me);
    MessageStore.SidebarIdsOfOthers(users, me);
  }

  /** The conversation reply as the server sends it: `{ success: true, messages }`. */
  function ConversationReply(messages: seq<Message>): ChatClient.MessagesResult {
    ChatClient.MessagesReplied(true, None, Some(messages))
  }

  /** As written, the client reads `data.message` from a reply that carries
      `messages`: a conversation the server returns, however many messages it
      holds, leaves the client with no messages at all. */
  lemma ConversationNeverLoads(st: ChatClient.ChatState, store: seq<Message>, me: string, other: string, m: Message)
    requires m in store && MessageStore.Between(m, me, other)
    ensures var reply := MessageStore.GetMessages(store, me, other).reply;
            && m in reply
            && ChatClient.GetMessages(st, ConversationReply(reply)).state.messages.None?
  {
  }

  /** Reading `data.messages`, the client holds exactly the conversation between
      the two users, each message as often as the store has it. */
  lemma ConversationLoads(st: ChatClient.ChatState, store: seq<Message>, me: string, other: string)
    ensures var held := ChatClient.GetMessagesIntended(st, ConversationReply(MessageStore.GetMessages(store, me, other).reply)).state.messages;
            && held.Some?
            && (forall m :: m in held.value <==> m in store && MessageStore.Between(m, me, other))
            && (forall m :: multiset(held.value)[m] == if MessageStore.Between(m, me, other) then multiset(store)[m] else 0)
  {
  }
}

=== FILE: js_values.dfy ===
/** JavaScript value semantics the handlers rely on: absent values, truthiness
    of strings, property keys of plain objects, and `String.prototype.split`. */
module JsValues {

  /** A value that may be absent. `None` is `undefined`, and also `null` where
      the two behave alike (truthiness, `||`, `??`). They differ as property
      keys: `obj[null]` uses the key "null", so a `null` that is used as a key
      must be given as `Some("null")`. */
  datatype Option<+T> = None | Some(value: T) {

    /** `x ?? default`, and `x || default` for values that are never falsy. */
    function GetOr(default: T): T {
      match this
      case Some(v) => v
      case None => default
    }
  }

  /** Truthiness of a string that may be absent: only a non-empty string is truthy. */
  predicate Truthy(s: Option<string>) {
    s.Some? && s.value != ""
  }

  /** `s || fallback` for a possibly absent string. */
  function OrElse(s: Option<string>, fallback: string): string {
    if Truthy(s) then s.value else fallback
  }

  /** The property key a plain object uses for a possibly undefined string:
      `obj[undefined]` reads and writes the key "undefined". */
  function PropertyKey(v: Option<string>): string {
    match v
    case Some(s) => s
    case None => "undefined"
  }

  /** `s.startsWith(prefix)`. */
  predicate StartsWith(s: string, prefix: string) {
    prefix <= s
  }

  /** `s.split(sep)` for a one-character separator: the maximal separator-free
      pieces, in order, including empty ones. */
  function Split(s: string, sep: char): (pieces: seq<string>)
    ensures |pieces| >= 1
    ensures forall i :: 0 <= i < |pieces| ==> sep !in pieces[i]
    ensures |pieces| == 1 <==> sep !in s
    decreases |s|
  {
    if s == [] then [""]
    else
      var rest := Split(s[1..], sep);
      if s[0] == sep then [""] + rest
      else [[s[0]] + rest[0]] + rest[1..]
  }

  /** `pieces.join(sep)`. */
  function Join(pieces: seq<string>, sep: char): string {
    if |pieces| == 0 then ""
    else if |pieces| == 1 then pieces[0]
    else pieces[0] + [sep] + Join(pieces[1..], sep)
  }

  /** `s.split(sep)[i]`: `undefined` when there are not enough pieces. */
  function Piece(s: string, sep: char, i: nat): (r: Option<string>)
    ensures r.Some? ==> sep !in r.value
    ensures i == 0 ==> r.Some?
    ensures i == 1 ==> (r.Some? <==> sep in s)
  {
    var pieces := Split(s, sep);
    if i < |pieces| then Some(pieces[i]) else None
  }

  /** Joining the pieces with the separator gives back the string. */
  lemma {:induction false} JoinSplit(s: string, sep: char)
    ensures Join(Split(s, sep), sep) == s
    decreases |s|
  {
    if s != [] {
      var rest := Split(s[1..], sep);
      var pieces := Split(s, sep);
      JoinSplit(s[1..], sep);
      assert s == [s[0]] + s[1..];
      if s[0] == sep {
        assert pieces == [""] + rest && pieces[1..] == rest;
        JoinUnfold(pieces, sep);
      } else if |rest| == 1 {
        assert pieces == [[s[0]] + rest[0]];
      } else {
        assert pieces == [[s[0]] + rest[0]] + rest[1..] && pieces[1..] == rest[1..];
        JoinUnfold(pieces, sep);
        JoinUnfold(rest, sep);
      }
    }
  }

  /** A separator-free prefix followed by the separator is split off as the first piece. */
  lemma {:induction false} SplitAfterFirst(a: string, sep: char, b: string)
    requires sep !in a
    ensures Split(a + [sep] + b, sep) == [a] + Split(b, sep)
    decreases |a|
  {
    var s := a + [sep] + b;
    if a == [] {
      assert s[0] == sep && s[1..] == b;
    } else {
      assert s[1..] == a[1..] + [sep] + b;
      SplitAfterFirst(a[1..], sep, b);
      assert [a[0]] + a[1..] == a;
    }
  }

  /** Splitting a joined list of separator-free pieces gives back the pieces. */
  lemma {:induction false} SplitJoin(pieces: seq<string>, sep: char)
    requires |pieces| >= 1
    requires forall i :: 0 <= i < |pieces| ==> sep !in pieces[i]
    ensures Split(Join(pieces, sep), sep) == pieces
    decreases |pieces|
  {
    if |pieces| == 1 {
      var p := Split(pieces[0], sep);
      assert |p| == 1;
      JoinSplit(pieces[0], sep);
      assert Join(p, sep) == p[0];
    } else {
      SplitJoin(pieces[1..], sep);
      SplitAfterFirst(pieces[0], sep, Join(pieces[1..], sep));
      assert [pieces[0]] + pieces[1..] == pieces;
    }
  }

  /** A list of two or more pieces joins as the first, the separator, and the join of the rest. */
  lemma JoinUnfold(pieces: seq<string>, sep: char)
    requires |pieces| >= 2
    ensures Join(pieces, sep) == pieces[0] + [sep] + Join(pieces[1..], sep)
  {
  }

  /** The layout around the second piece of a split string. */
  predicate SecondPieceAt(s: string, sep: char, p: string, first: string, rest: string) {
    sep !in first && (rest == [] || rest[0] == sep) && s == first + [sep] + p + rest
  }

  /** When a string has a second piece, it is the first piece, the separator,
      the second piece, and then either nothing or the separator and the rest. */
  lemma SecondPieceLayout(s: string, sep: char)
    requires Piece(s, sep, 1).Some?
    ensures var p := Piece(s, sep, 1).value;
            && sep !in p
            && exists first, rest :: SecondPieceAt(s, sep, p, first, rest)
  {
    var pieces := Split(s, sep);
    JoinSplit(s, sep);
    JoinUnfold(pieces, sep);
    var tail := Join(pieces[1..], sep);
    var rest: string;
    if |pieces| == 2 {
      rest := [];
      assert tail == pieces[1];
    } else {
      rest := [sep] + Join(pieces[2..], sep);
      JoinUnfold(pieces[1..], sep);
      assert pieces[1..][1..] == pieces[2..];
    }
    assert tail == pieces[1] + rest;
    assert SecondPieceAt(s, sep, pieces[1], pieces[0], rest);
  }
}

=== FILE: message_store.dfy ===
/** The message controller of server/controllers/messageController.js over an
    in-memory message collection (a sequence of message documents in insertion
    order) in place of MongoDB. Every handler runs behind the auth middleware,
    so the requester's id `me` is always that of an existing user. */
module MessageStore {
  import opened JsValues
  import opened Records

  // ---------------------------------------------------------------------------
  // Queries

  /** Matches `{ senderId: from, receiverId: to, seen: false }`. */
  predicate UnseenFrom(m: Message, from: string, to: string) {
    m.senderId == from && m.receiverId == to && !m.seen
  }

  /** The number of documents matching `{ senderId: from, receiverId: to, seen: false }`. */
  function CountUnseen(store: seq<Message>, from: string, to: string): (n: nat)
    ensures n <= |store|
    decreases |store|
  {
    if |store| == 0 then 0
    else
      var last := store[|store| - 1];
      CountUnseen(store[..|store| - 1], from, to) + (if UnseenFrom(last, from, to) then 1 else 0)
  }

  /** The count is zero exactly when no document matches. */
  lemma {:induction false} CountUnseenZeroIff(store: seq<Message>, from: string, to: string)
    ensures CountUnseen(store, from, to) == 0 <==> forall i :: 0 <= i < |store| ==> !UnseenFrom(store[i], from, to)
    decreases |store|
  {
    if |store| > 0 {
      var n := |store| - 1;
      CountUnseenZeroIff(store[..n], from, to);
      assert forall i :: 0 <= i < n ==> store[..n][i] == store[i];
    }
  }

  /** Storing one more message adds one to the count it matches. */
  lemma CountUnseenSnoc(store: seq<Message>, m: Message, from: string, to: string)
    ensures CountUnseen(store + [m], from, to) == CountUnseen(store, from, to) + (if UnseenFrom(m, from, to) then 1 else 0)
  {
    assert (store + [m])[..|store|] == store;
  }

  /** A stored message that is unseen from a listed user to `me` raises that
      user's entry of the sidebar counts by one and leaves the others alone. */
  lemma UnseenCountsAfterStore(users: seq<Profile>, store: seq<Message>, me: string, m: Message)
    requires m.senderId in SidebarIds(users, me) && UnseenFrom(m, m.senderId, me)
    ensures UnseenCounts(users, store + [m], me) ==
            UnseenCounts(users, store, me)[m.senderId := CountUnseen(store, m.senderId, me) + 1]
  {
    var s := m.senderId;
    var before := UnseenCounts(users, store, me);
    var after := UnseenCounts(users, store + [m], me);
    var expected := before[s := CountUnseen(store, s, me) + 1];
    CountUnseenSnoc(store, m, s, me);
    assert s in after && after[s] == expected[s];
    forall u | u != s
      ensures (u in after <==> u in before) && (u in after ==> after[u] == before[u])
    {
      CountUnseenSnoc(store, m, u, me);
    }
    assert after.Keys == expected.Keys;
  }

  /** `User.find({ _id: { $ne: me } })`: every user but the requester, in store order. */
  function OtherUsers(users: seq<Profile>, me: string): (r: seq<Profile>)
    ensures forall p :: p in r <==> p in users && p.id != me
    ensures |r| <= |users|
    decreases |users|
  {
    if |users| == 0 then []
    else
      var last := users[|users| - 1];
      OtherUsers(users[..|users| - 1], me) + (if last.id != me then [last] else [])
  }

  /** The listing holds each other user exactly as often as the collection
      does, and the requester never. */
  lemma {:induction false} OtherUsersCounts(users: seq<Profile>, me: string)
    ensures forall p :: multiset(OtherUsers(users, me))[p] == if p.id != me then multiset(users)[p] else 0
    decreases |users|
  {
    if |users| > 0 {
      var n := |users| - 1;
      OtherUsersCounts(users[..n], me);
      assert users == users[..n] + [users[n]];
    }
  }

  /** The ids of the users the sidebar lists. */
  ghost function SidebarIds(users: seq<Profile>, me: string): set<string> {
    set p | p in users && p.id != me :: p.id
  }

  /** The `unseenMessages` object of the sidebar reply, as a reference definition:
      one key per listed user with at least one unseen message to `me`. */
  ghost function UnseenCounts(users: seq<Profile>, store: seq<Message>, me: string): map<string, nat> {
    map u | u in SidebarIds(users, me) && CountUnseen(store, u, me) > 0 :: CountUnseen(store, u, me)
  }

  /** Listing one more user lists it too, unless it is the requester. */
  lemma OtherUsersSnoc(users: seq<Profile>, p: Profile, me: string)
    ensures OtherUsers(users + [p], me) == OtherUsers(users, me) + (if p.id != me then [p] else [])
  {
    assert (users + [p])[..|users|] == users;
  }

  /** Listing one more user adds its id, unless it is the requester. */
  lemma SidebarIdsSnoc(users: seq<Profile>, p: Profile, me: string)
    ensures SidebarIds(users + [p], me) == SidebarIds(users, me) + (if p.id != me then {p.id} else {})
  {
  }

  /** The sidebar's own listing has the same ids as the whole collection. */
  lemma SidebarIdsOfOthers(users: seq<Profile>, me: string)
    ensures SidebarIds(OtherUsers(users, me), me) == SidebarIds(users, me)
  {
  }

  /** `unseen` holds the positive unseen counts to `me` of exactly the users in `ids`. */
  ghost predicate Tallied(unseen: map<string, nat>, ids: set<string>, store: seq<Message>, me: string) {
    && (forall u :: u in unseen <==> u in ids && CountUnseen(store, u, me) > 0)
    && (forall u :: u in unseen ==> unseen[u] == CountUnseen(store, u, me))
  }

  /** Tallying one more user keeps the map in step with the ids. */
  lemma TalliedAdd(unseen: map<string, nat>, ids: set<string>, store: seq<Message>, me: string, id: string)
    requires Tallied(unseen, ids, store, me)
    ensures var n := CountUnseen(store, id, me);
            Tallied(if n > 0 then unseen[id := n] else unseen, ids + {id}, store, me)
  {
  }

  /** One user more: the listing of the first `i + 1` users. */
  lemma ListingStep(users: seq<Profile>, me: string, i: nat)
    requires i < |users|
    ensures OtherUsers(users[..i + 1], me) == OtherUsers(users[..i], me) + (if users[i].id != me then [users[i]] else [])
  {
    assert users[..i + 1] == users[..i] + [users[i]];
    OtherUsersSnoc(users[..i], users[i], me);
  }

  /** One user more: the tally of the first `i + 1` users. */
  lemma TallyStep(users: seq<Profile>, store: seq<Message>, me: string, i: nat, unseen: map<string, nat>)
    requires i < |users|
    requires Tallied(unseen, SidebarIds(users[..i], me), store, me)
    ensures var p := users[i];
            var n := CountUnseen(store, p.id, me);
            && (p.id != me ==> Tallied(if n > 0 then unseen[p.id := n] else unseen, SidebarIds(users[..i + 1], me), store, me))
            && (p.id == me ==> Tallied(unseen, SidebarIds(users[..i + 1], me), store, me))
  {
    var p := users[i];
    assert users[..i + 1] == users[..i] + [p];
    SidebarIdsSnoc(users[..i], p, me);
    if p.id != me {
      TalliedAdd(unseen, SidebarIds(users[..i], me), store, me, p.id);
    }
  }

  /** `getUsersForSidebar`: every user but the requester, and for each of them
      the number of their messages to the requester not yet seen, keyed only
      when that number is positive. */
  method UsersForSidebar(users: seq<Profile>, store: seq<Message>, me: string)
    returns (filtered: seq<Profile>, unseen: map<string, nat>)
    ensures filtered == OtherUsers(users, me)
    ensures forall u :: u in unseen <==> u in SidebarIds(users, me) && CountUnseen(store, u, me) > 0
    ensures forall u :: u in unseen ==> unseen[u] == CountUnseen(store, u, me)
  {
    filtered := [];
    unseen := map[];
    var i := 0;
    while i < |users|
      invariant 0 <= i <= |users|
      invariant filtered == OtherUsers(users[..i], me)
      invariant Tallied(unseen, SidebarIds(users[..i], me), store, me)
    {
      var p := users[i];
      ListingStep(users, me, i);
      TallyStep(users, store, me, i, unseen);
      if p.id != me {
        filtered := filtered + [p];
        var n := CountUnseen(store, p.id, me);
        if n > 0 {
          unseen := unseen[p.id := n];
        }
      }
      i := i + 1;
    }
    assert users[..i] == users;
  }

  /** The sidebar's unread map is the reference `UnseenCounts`. */
  lemma UsersForSidebarMatchesReference(unseen: map<string, nat>, users: seq<Profile>, store: seq<Message>, me: string)
    requires forall u :: u in unseen <==> u in SidebarIds(users, me) && CountUnseen(store, u, me) > 0
    requires forall u :: u in unseen ==> unseen[u] == CountUnseen(store, u, me)
    ensures unseen == UnseenCounts(users, store, me)
  {
  }

  // ---------------------------------------------------------------------------
  // Reading a conversation

  /** Matches the `$or` of `{ senderId: a, receiverId: b }` and `{ senderId: b, receiverId: a }`. */
  predicate Between(m: Message, a: string, b: string) {
    (m.senderId == a && m.receiverId == b) || (m.senderId == b && m.receiverId == a)
  }

  /** The documents exchanged between `me` and `other`. The `.sort({ created: 1 })`
      names a field messages do not have, so no order is promised. */
  function Conversation(store: seq<Message>, me: string, other: string): (r: seq<Message>)
    ensures forall m :: m in r <==> m in store && Between(m, me, other)
    ensures forall m :: multiset(r)[m] == if Between(m, me, other) then multiset(store)[m] else 0
    decreases |store|
  {
    if |store| == 0 then []
    else
      var last := store[|store| - 1];
      assert store == store[..|store| - 1] + [last];
      Conversation(store[..|store| - 1], me, other) + (if Between(last, me, other) then [last] else [])
  }

  /** `updateMany({ senderId: other, receiverId: me }, { seen: true })`. */
  function MarkConversationSeen(store: seq<Message>, me: string, other: string): (r: seq<Message>)
    ensures |r| == |store|
    ensures forall i :: 0 <= i < |store| ==> r[i].(seen := store[i].seen) == store[i]
    ensures forall i :: 0 <= i < |store| ==>
              r[i].seen == (store[i].seen || (store[i].senderId == other && store[i].receiverId == me))
  {
    seq(|store|, i requires 0 <= i < |store| =>
      if store[i].senderId == other && store[i].receiverId == me then store[i].(seen := true) else store[i])
  }

  /** Opening a conversation clears exactly the unread count from `other` to
      `me`; every other sender/receiver count is unchanged. */
  lemma {:induction false} MarkConversationSeenCounts(store: seq<Message>, me: string, other: string, from: string, to: string)
    ensures CountUnseen(MarkConversationSeen(store, me, other), from, to) ==
            if from == other && to == me then 0 else CountUnseen(store, from, to)
    decreases |store|
  {
    var r := MarkConversationSeen(store, me, other);
    if |store| > 0 {
      var n := |store| - 1;
      var last := store[n];
      assert r[..n] == MarkConversationSeen(store[..n], me, other);
      assert r[n] == if last.senderId == other && last.receiverId == me then last.(seen := true) else last;
      MarkConversationSeenCounts(store[..n], me, other, from, to);
      assert CountUnseen(r, from, to) == CountUnseen(r[..n], from, to) + (if UnseenFrom(r[n], from, to) then 1 else 0);
      assert CountUnseen(store, from, to) == CountUnseen(store[..n], from, to) + (if UnseenFrom(last, from, to) then 1 else 0);
    }
  }

  /** The store after a handler, and its reply. */
  datatype Handled<R> = Handled(store: seq<Message>, reply: R)

  /** `getMessages`: the conversation between `me` and `other`, read before its
      messages from `other` are marked seen, so it carries the old flags. */
  function GetMessages(store: seq<Message>, me: string, other: string): (r: Handled<seq<Message>>)
    ensures forall m :: m in r.reply <==> m in store && Between(m, me, other)
    ensures forall m :: multiset(r.reply)[m] == if Between(m, me, other) then multiset(store)[m] else 0
    ensures |r.store| == |store|
    ensures forall i :: 0 <= i < |store| ==> r.store[i].(seen := store[i].seen) == store[i]
    ensures forall i :: 0 <= i < |store| ==>
              r.store[i].seen == (store[i].seen || (store[i].senderId == other && store[i].receiverId == me))
    ensures CountUnseen(r.store, other, me) == 0
  {
    var r := Handled(MarkConversationSeen(store, me, other), Conversation(store, me, other));
    MarkConversationSeenCounts(store, me, other, other, me);
    r
  }

  // ---------------------------------------------------------------------------
  // Marking one message

  /** Message ids are MongoDB `_id`s: no two documents share one. */
  ghost predicate UniqueIds(store: seq<Message>) {
    forall i, j :: 0 <= i < j < |store| ==> store[i].id != store[j].id
  }

  /** `markMessagesAsSeen`: `findByIdAndUpdate(id, { seen: true })`. An id that
      matches no document changes nothing and the reply is still a success. */
  function MarkSeen(store: seq<Message>, id: string): (r: seq<Message>)
    ensures |r| == |store|
    ensures forall i :: 0 <= i < |store| ==> r[i].(seen := store[i].seen) == store[i]
    ensures forall i :: 0 <= i < |store| ==> r[i].seen == (store[i].seen || store[i].id == id)
  {
    seq(|store|, i requires 0 <= i < |store| => if store[i].id == id then store[i].(seen := true) else store[i])
  }

  /** Under unique ids, marking changes at most the one document with that id,
      and an unknown id changes nothing. */
  lemma MarkSeenTouchesOnlyThatMessage(store: seq<Message>, id: string, k: nat)
    requires UniqueIds(store)
    requires k < |store| && store[k].id == id
    ensures forall i :: 0 <= i < |store| && i != k ==> MarkSeen(store, id)[i] == store[i]
    ensures MarkSeen(store, id)[k].seen
  {
  }

  lemma MarkSeenUnknownId(store: seq<Message>, id: string)
    requires forall i :: 0 <= i < |store| ==> store[i].id != id
    ensures MarkSeen(store, id) == store
  {
    var r := MarkSeen(store, id);
    assert forall i :: 0 <= i < |store| ==> r[i] == store[i];
  }

  // ---------------------------------------------------------------------------
  // Sending

  /** What the image upload of one send returned: a `secure_url` (possibly
      absent), or a thrown error. */
  datatype UploadOutcome = Uploaded(secureUrl: Option<string>) | UploadFailed

  /** The JSON reply of `sendMessage` with its HTTP status. */
  datatype SendReply = SendReply(status: int, success: bool, message: string, newMessage: Option<Message>)

  /** `sendMessage` from the authenticated `senderId` to the route's `receiverId`.
      `upload` is what uploading `draft.image` yields (consulted only when the
      image is truthy); `newId` is the `_id` MongoDB assigns to the new document. */
  function SendMessage(store: seq<Message>, senderId: string, receiverId: string, draft: Draft,
                       upload: UploadOutcome, newId: string): (r: Handled<SendReply>)
    ensures !Truthy(draft.text) && !Truthy(draft.image) ==>
              r == Handled(store, SendReply(400, false, "Text or image is required", None))
    ensures (Truthy(draft.text) || Truthy(draft.image)) && Truthy(draft.image) && upload.UploadFailed? ==>
              r == Handled(store, SendReply(500, false, "Image upload failed", None))
    ensures r.reply.success <==> (Truthy(draft.text) || Truthy(draft.image)) && !(Truthy(draft.image) && upload.UploadFailed?)
    ensures !r.reply.success ==> r.store == store && r.reply.newMessage.None?
    ensures r.reply.success ==>
              && r.reply.status == 201
              && r.reply.newMessage.Some?
              && r.store == store + [r.reply.newMessage.value]
              && r.reply.newMessage.value.id == newId
              && r.reply.newMessage.value.senderId == senderId
              && r.reply.newMessage.value.receiverId == receiverId
              && r.reply.newMessage.value.text == draft.text
              && !r.reply.newMessage.value.seen
              && (!Truthy(draft.image) ==> r.reply.newMessage.value.image == "")
              && (Truthy(draft.image) ==> r.reply.newMessage.value.image == OrElse(upload.secureUrl, ""))
  {
    if !Truthy(draft.text) && !Truthy(draft.image) then
      Handled(store, SendReply(400, false, "Text or image is required", None))
    else if Truthy(draft.image) && upload.UploadFailed? then
      Handled(store, SendReply(500, false, "Image upload failed", None))
    else
      var imageUrl := if Truthy(draft.image) then OrElse(upload.secureUrl, "") else "";
      var m := Message(newId, senderId, receiverId, draft.text, imageUrl, false);
      Handled(store + [m], SendReply(201, true, "Message sent successfully", Some(m)))
  }

  /** A successful send adds one to the receiver's unread count from the sender
      and leaves every other count alone; a failed one changes no count. */
  lemma SendMessageCounts(store: seq<Message>, senderId: string, receiverId: string, draft: Draft,
                          upload: UploadOutcome, newId: string, from: string, to: string)
    ensures var r := SendMessage(store, senderId, receiverId, draft, upload, newId);
            CountUnseen(r.store, from, to) ==
              CountUnseen(store, from, to) + (if r.reply.success && from == senderId && to == receiverId then 1 else 0)
  {
    var r := SendMessage(store, senderId, receiverId, draft, upload, newId);
    if r.reply.success {
      var m := r.reply.newMessage.value;
      assert (store + [m])[..|store|] == store;
    }
  }

  /** A send with a fresh id keeps the ids unique. */
  lemma SendMessageKeepsIdsUnique(store: seq<Message>, senderId: string, receiverId: string, draft: Draft,
                                  upload: UploadOutcome, newId: string)
    requires UniqueIds(store)
    requires forall i :: 0 <= i < |store| ==> store[i].id != newId
    ensures UniqueIds(SendMessage(store, senderId, receiverId, draft, upload, newId).store)
  {
  }
}

=== FILE: presence.dfy ===
/** The real-time relay of server/server.js: the `userSocketMap` presence table
    and the `connection`, `sendMessage` and `disconnect` handlers. Each handler
    runs to completion on the event loop, so each is a pure function from the
    table (and its input) to the new table and the events it emits.

    The relay is generic in the payload type `P`: it reads only the payload's
    `receiverId` (through `receiverOf`) and forwards the payload untouched. */
module Presence {
  import opened JsValues

  type UserId = string
  type SocketId = string

  /** `userSocketMap`: user id to the id of the socket last registered for it. */
  type Table = map<UserId, SocketId>

  /** `GetOnlineUsers` is sent to every connected client (`io.emit`) with the
      table's keys; `NewMessage` is sent to the one socket `to`. The key list
      is modelled as a set: clients use it as one. */
  datatype Event<P> = GetOnlineUsers(online: set<UserId>) | NewMessage(to: SocketId, payload: P)

  /** The table after a handler, and the events it emitted, in order. */
  datatype Step<P> = Step(table: Table, emitted: seq<Event<P>>)

  /** The table after a handler that ends in one `io.emit("getOnlineUsers", ...)`,
      and the user ids that broadcast carries. */
  datatype Broadcast = Broadcast(table: Table, online: set<UserId>)

  /** `io.on("connection")`: register the handshake's `userId` if it is truthy,
      then broadcast the online users, whether or not anything was registered. */
  function OnConnection(t: Table, socket: SocketId, userId: Option<string>): (r: Broadcast)
    ensures Truthy(userId) ==> userId.value in r.table && r.table[userId.value] == socket
    ensures !Truthy(userId) ==> r.table == t
    ensures forall u :: u in r.table <==> u in t || (Truthy(userId) && u == userId.value)
    ensures forall u :: u in t && u != PropertyKey(userId) ==> r.table[u] == t[u]
    ensures r.online == r.table.Keys
  {
    var t' := if Truthy(userId) then t[userId.value := socket] else t;
    Broadcast(t', t'.Keys)
  }

  /** `socket.on("sendMessage")`: forward the payload to the socket registered
      for its `receiverId`, if that entry exists and is truthy; the table is only read.
      `receiverOf` gives `None` for an undefined `receiverId` and `Some("null")`
      for a `null` one, since that is the key `userSocketMap[null]` reads. */
  function OnSendMessage<P>(t: Table, message: P, receiverOf: P -> Option<string>): (r: Step<P>)
    ensures r.table == t
    ensures |r.emitted| <= 1
    ensures forall e :: e in r.emitted ==> e.NewMessage? && e.payload == message
    ensures var k := PropertyKey(receiverOf(message));
            |r.emitted| == 1 <==> k in t && t[k] != ""
    ensures var k := PropertyKey(receiverOf(message));
            |r.emitted| == 1 ==> r.emitted[0].to == t[k]
  {
    var receiverId := PropertyKey(receiverOf(message));
    if receiverId in t && t[receiverId] != "" then
      Step(t, [NewMessage(t[receiverId], message)])
    else
      Step(t, [])
  }

  /** `socket.on("disconnect")`: delete the entry of the `userId` this socket
      connected with, with no check of which socket the entry now holds, then
      broadcast the online users, even if nothing was deleted. */
  function OnDisconnect(t: Table, userId: Option<string>): (r: Broadcast)
    ensures PropertyKey(userId) !in r.table
    ensures forall u :: u in r.table <==> u in t && u != PropertyKey(userId)
    ensures forall u :: u in r.table ==> r.table[u] == t[u]
    ensures r.online == r.table.Keys
  {
    var t' := t - {PropertyKey(userId)};
    Broadcast(t', t'.Keys)
  }

  // ---------------------------------------------------------------------------
  // The process: the table together with the live sockets. Each socket's
  // handlers close over the `userId` of its handshake, so the `disconnect` of
  // a socket deletes the key that socket connected with.

  /** `live` maps each connected socket to the `userId` of its handshake. */
  datatype Server = Server(table: Table, live: map<SocketId, Option<string>>)

  /** What the transport delivers: a new connection, or an event on a socket. */
  datatype Input<P> = Connect(socket: SocketId, userId: Option<string>)
                    | Send(from: SocketId, message: P)
                    | Disconnect(socket: SocketId)

  datatype Outcome<P> = Outcome(server: Server, emitted: seq<Event<P>>)

  /** Dispatch one input to its handler. socket.io raises events only for
      connected sockets, so an event for an unknown socket changes nothing. */
  function Deliver<P>(srv: Server, input: Input<P>, receiverOf: P -> Option<string>): (r: Outcome<P>)
    ensures input.Send? ==> r.server == srv
    ensures input.Connect? ==> r.server.live == srv.live[input.socket := input.userId]
    ensures input.Disconnect? && input.socket in srv.live ==> r.server.live == srv.live - {input.socket}
    ensures input.Connect? || (input.Disconnect? && input.socket in srv.live) ==>
              r.emitted == [GetOnlineUsers(r.server.table.Keys)]
    ensures input.Connect? ==> r.server.table == OnConnection(srv.table, input.socket, input.userId).table
    ensures input.Disconnect? && input.socket in srv.live ==>
              r.server.table == OnDisconnect(srv.table, srv.live[input.socket]).table
    ensures input.Send? && input.from in srv.live ==>
              r.emitted == OnSendMessage(srv.table, input.message, receiverOf).emitted
    ensures (input.Send? && input.from !in srv.live) || (input.Disconnect? && input.socket !in srv.live) ==>
              r == Outcome(srv, [])
  {
    match input
    case Connect(s, userId) =>
      var b := OnConnection(srv.table, s, userId);
      Outcome(Server(b.table, srv.live[s := userId]), [GetOnlineUsers(b.online)])
    case Send(s, message) =>
      if s in srv.live then
        var step := OnSendMessage(srv.table, message, receiverOf);
        Outcome(srv, step.emitted)
      else Outcome(srv, [])
    case Disconnect(s) =>
      if s in srv.live then
        var b := OnDisconnect(srv.table, srv.live[s]);
        Outcome(Server(b.table, srv.live - {s}), [GetOnlineUsers(b.online)])
      else Outcome(srv, [])
  }

  /** Every table entry names a live socket whose handshake claimed that user:
      the relay never forwards to a socket that has disconnected. */
  ghost predicate Consistent(srv: Server) {
    forall u :: u in srv.table ==> srv.table[u] in srv.live && srv.live[srv.table[u]] == Some(u)
  }

  /** socket.io never hands out the id of a connected socket to a new connection. */
  predicate FreshConnect<P>(srv: Server, input: Input<P>) {
    input.Connect? ==> input.socket !in srv.live
  }

  /** Each handler keeps the table consistent with the live sockets, and every
      forwarded message goes to a live socket that claimed the receiver's id. */
  lemma DeliverKeepsConsistent<P>(srv: Server, input: Input<P>, receiverOf: P -> Option<string>)
    requires Consistent(srv)
    requires FreshConnect(srv, input)
    ensures Consistent(Deliver(srv, input, receiverOf).server)
    ensures forall e :: e in Deliver(srv, input, receiverOf).emitted && e.NewMessage? ==>
              e.to in srv.live && srv.live[e.to] == Some(PropertyKey(receiverOf(e.payload)))
  {
    var r := Deliver(srv, input, receiverOf);
    match input
    case Connect(s, userId) =>
      forall u | u in r.server.table
        ensures r.server.table[u] in r.server.live && r.server.live[r.server.table[u]] == Some(u)
      {
        if !(Truthy(userId) && u == userId.value) {
          assert srv.table[u] != s;
        }
      }
    case Send(s, message) =>
    case Disconnect(s) =>
      if s in srv.live {
        forall u | u in r.server.table
          ensures r.server.table[u] in r.server.live && r.server.live[r.server.table[u]] == Some(u)
        {
          assert srv.table[u] != s;
        }
      }
  }

  /** Run a sequence of inputs, collecting every emitted event in order. */
  function Run<P>(srv: Server, inputs: seq<Input<P>>, receiverOf: P -> Option<string>): Outcome<P>
    decreases |inputs|
  {
    if |inputs| == 0 then Outcome(srv, [])
    else
      var first := Deliver(srv, inputs[0], receiverOf);
      var rest := Run(first.server, inputs[1..], receiverOf);
      Outcome(rest.server, first.emitted + rest.emitted)
  }

  /** Every connection in the run gets a socket id that is not connected at that moment. */
  predicate FreshConnects<P>(srv: Server, inputs: seq<Input<P>>, receiverOf: P -> Option<string>)
    decreases |inputs|
  {
    |inputs| == 0 ||
    (FreshConnect(srv, inputs[0]) && FreshConnects(Deliver(srv, inputs[0], receiverOf).server, inputs[1..], receiverOf))
  }

  /** Consistency holds after any run that starts consistent (the empty table at startup is). */
  lemma {:induction false} RunKeepsConsistent<P>(srv: Server, inputs: seq<Input<P>>, receiverOf: P -> Option<string>)
    requires Consistent(srv)
    requires FreshConnects(srv, inputs, receiverOf)
    ensures Consistent(Run(srv, inputs, receiverOf).server)
    decreases |inputs|
  {
    if |inputs| > 0 {
      DeliverKeepsConsistent(srv, inputs[0], receiverOf);
      RunKeepsConsistent(Deliver(srv, inputs[0], receiverOf).server, inputs[1..], receiverOf);
    }
  }

  /** The converse does not hold: a live socket can be missing from the table.
      When a user connects twice and the older socket disconnects, its
      `disconnect` deletes the user's entry although it now names the newer
      socket; the newer socket stays connected but receives no messages. */
  lemma StaleDisconnectEvictsNewerSocket(a: UserId, s1: SocketId, s2: SocketId, m: string)
    requires a != "" && s1 != s2 && s2 != ""
    ensures var receiverOf := (x: string) => Some(a);
            var r := Run<string>(Server(map[], map[]), [Connect(s1, Some(a)), Connect(s2, Some(a)), Disconnect(s1), Send(s2, m)], receiverOf);
            && s2 in r.server.live && r.server.live[s2] == Some(a)
            && a !in r.server.table
            && forall e :: e in r.emitted ==> !e.NewMessage?
  {
    var receiverOf := (x: string) => Some(a);
    var s0 := Server(map[], map[]);
    var o1 := Deliver(s0, Connect(s1, Some(a)), receiverOf);
    var o2 := Deliver(o1.server, Connect(s2, Some(a)), receiverOf);
    assert o2.server.table == map[a := s2];
    var o3 := Deliver(o2.server, Disconnect(s1), receiverOf);
    assert o3.server.table == map[];
    var o4 := Deliver(o3.server, Send(s2, m), receiverOf);
    assert o4.emitted == [];
    var inputs := [Connect(s1, Some(a)), Connect(s2, Some(a)), Disconnect(s1), Send(s2, m)];
    var r4 := Run<string>(o3.server, inputs[3..], receiverOf);
    assert inputs[3..] == [Send(s2, m)] && inputs[3..][1..] == [];
    assert Run<string>(o4.server, [], receiverOf) == Outcome(o4.server, []);
    assert r4 == Outcome(o4.server, o4.emitted);
    var r3 := Run<string>(o2.server, inputs[2..], receiverOf);
    assert inputs[2..][0] == Disconnect(s1) && inputs[2..][1..] == inputs[3..];
    assert r3 == Outcome(o4.server, o3.emitted + o4.emitted);
    var r2 := Run<string>(o1.server, inputs[1..], receiverOf);
    assert inputs[1..][0] == Connect(s2, Some(a)) && inputs[1..][1..] == inputs[2..];
    assert r2 == Outcome(o4.server, o2.emitted + (o3.emitted + o4.emitted));
    var r := Run<string>(s0, inputs, receiverOf);
    assert r == Outcome(o4.server, o1.emitted + (o2.emitted + (o3.emitted + o4.emitted)));
  }
}

=== FILE: records.dfy ===
/** The stored and transferred records the handlers share. The Mongoose schemas
    (models/User.js, models/Message.js) are not part of this model; the fields
    are the ones the controllers read and write. */
module Records {
  import opened JsValues

  /** A user document. `password` holds the bcrypt hash, never the raw password.
      `profilePic` is "" until the user sets one. */
  datatype User = User(id: string, fullName: string, email: string, password: string, bio: string, profilePic: string)

  /** A user as sent to clients: the document with `.select("-password")`. */
  datatype Profile = Profile(id: string, fullName: string, email: string, bio: string, profilePic: string)

  function Redact(u: User): (p: Profile)
    ensures p.id == u.id && p.email == u.email && p.fullName == u.fullName
  {
    Profile(u.id, u.fullName, u.email, u.bio, u.profilePic)
  }

  /** A profile carries nothing of the password: two users give the same
      profile exactly when they agree on every other field. */
  lemma RedactDropsOnlyPassword(u: User, v: User)
    ensures Redact(u) == Redact(v) <==> u.(password := v.password) == v
  {
  }

  /** A message document. A client-side message whose `senderId` is missing is
      represented with `senderId == ""`: the client only tests it for truthiness. */
  datatype Message = Message(id: string, senderId: string, receiverId: string, text: Option<string>, image: string, seen: bool)

  /** The body of a send request: `{ text, image }`, where `image` is a data URL to upload. */
  datatype Draft = Draft(text: Option<string>, image: Option<string>)

  /** The field a lookup matches: `_id` (`User.findById`) or `email`
      (`User.findOne({ email })`). */
  datatype Key = ById | ByEmail

  function Field(u: User, key: Key): string {
    match key
    case ById => u.id
    case ByEmail => u.email
  }

  /** The first user whose `key` field is `value`. */
  function Find(users: seq<User>, key: Key, value: string): (r: Option<User>)
    ensures r.Some? ==> r.value in users && Field(r.value, key) == value
    ensures r.None? <==> forall u :: u in users ==> Field(u, key) != value
  {
    if |users| == 0 then None
    else if Field(users[0], key) == value then Some(users[0])
    else Find(users[1..], key, value)
  }
}
